=== FILE: README.md ===
# Chessboard camera calibration: the bookkeeping around OpenCV

This project models, in Dafny, the discrete logic of a small camera-calibration
pipeline written in Python on top of OpenCV. The numerical work (chessboard corner
detection, sub-pixel refinement, the Levenberg–Marquardt calibration, undistortion) is
OpenCV's and enters the model only as function parameters. What is modelled exactly is
the code the repository itself contributes:

- **Object points** (`prepare_object_points`): the 10 × 7 inner corners of the
  11 × 8 square chessboard as 3D points on the plane z = 0, unit square size, built with
  `np.mgrid(...).T.reshape(-1, 2)`. Module `Pattern` models the three array steps
  literally and proves the closed form: point i is (i mod 10, i div 10, 0), so the
  column index varies fastest.
- **Stereo pair selection** (`detect_chessboard`, `select_images`): each camera's file
  list is sorted by the integer written before the first `_` of the file name, the two
  lists are zipped up to the shorter one, and a position is kept only when the
  chessboard is found in both images. Modules `FileNames` (POSIX `basename`,
  `split('_')[0]`, Python `int()`), `KeySort` (Python's stable `sorted` with a key that
  may raise), `Indices` (positions kept by a filter) and `Classification`.
- **Correspondence accumulation** (`calibrate_camera`): one copy of the object points
  and the refined corners are appended in lockstep for every image in which the board
  is found; no detection at all raises `ValueError` before the solver is called.
  Module `Calibration`.

Oracles. `load : Path -> Option<Image>` is `cv.imread` (None for a file that cannot be
decoded), `find : Image -> Option<Corners>` is the grey conversion followed by
`cv.findChessboardCorners` (None when `ret` is false), `refine` is `cv.cornerSubPix`,
`size` is `gray.shape[::-1]` and `solve` is `cv.calibrateCamera`. They are pure
functions, so the model is deterministic in them, and every contract holds for every
choice of them.

Diagnostics. The warnings the scripts print are modelled as a log of `Diagnostic`
values (`FailedToLoad`, `UnequalCounts`, `PairNotDetected`), so that "a dropped pair is
reported by its two file names" can be stated and proved.

An image that fails to load: `detect_chessboard` treats it as not detected, but
`calibrate_camera` never checks `cv.imread`'s result and `cv.cvtColor` raises on it;
`Calibration.CalibrateCamera` returns `Err(ImageLoadCrash(path))` for the first such
path.

## Model

| member | source | states |
|---|---|---|
| Pattern.Mgrid | scripts/calibration.py:13 | `np.mgrid[0:cols, 0:rows]`: two cols × rows planes, the first holding the column index, the second the row index |
| Pattern.Transpose | scripts/calibration.py:13 | `.T` of the (2, cols, rows) array: a (rows, cols, 2) array whose entry (r, c) is [c, r]; specified together with `.reshape` by FlatCell |
| Pattern.Flatten | scripts/calibration.py:13 | `.reshape(-1, 2)`: the rows of the transposed array joined in order; specified by FlattenAt |
| Pattern.FlattenAt | scripts/calibration.py:13 | `.reshape(-1, 2)` of a (rows, cols, 2) array is row-major: the entry in row r, column c lands at position r × cols + c of the result |
| Pattern.FlatCell | scripts/calibration.py:13 | after `.T.reshape(-1, 2)` of `mgrid[0:cols, 0:rows]`, entry i is (i mod cols, i div cols) |
| Pattern.GridPoints | scripts/calibration.py:12-13 | the zeros array with its first two columns taken from `mgrid[0:cols, 0:rows].T.reshape(-1, 2)` has cols × rows points and point i is (i mod cols, i div cols, 0) |
| Pattern.ObjectPoints | scripts/calibration.py:7-14 | `prepare_object_points` returns exactly 70 = 10 × 7 points, every one with z = 0, point i being (i mod 10, i div 10, 0) |
| Pattern.GridIndexRoundTrip | scripts/calibration.py:13 | the corner in column c, row r sits at position r × cols + c and has coordinates (c, r, 0) |
| Pattern.PositionRoundTrip | scripts/calibration.py:13 | conversely, point i names a column below cols and a row below rows, and that corner sits at position i: positions and (column, row) pairs correspond one to one |
| Pattern.GridPointsDistinct | scripts/calibration.py:13 | no two positions of the grid carry the same point |
| Pattern.GridRowStep | scripts/calibration.py:13 | within a row consecutive points differ by exactly 1 in x and 0 in y and z |
| Pattern.GridColumnStep | scripts/calibration.py:13 | points one row apart (cols positions) differ by exactly 1 in y and 0 in x |
| FileNames.Basename | scripts/classification.py:29-30 | `os.path.basename`; specified by BasenameSpec |
| FileNames.FirstField | scripts/classification.py:29-30 | `split('_')[0]`; specified by FirstFieldSpec |
| FileNames.ParseInt | scripts/classification.py:29-30 | `int()` in base 10: strip, one optional sign, decimal digits (at most 4300, the default `sys.get_int_max_str_digits()`), None for the ValueError; specified in both directions by ParseIntShape and ParseNumeral |
| FileNames.FrameIndex | scripts/classification.py:29-30 | the sort key `int(os.path.basename(x).split('_')[0])`; specified in both directions by FrameIndexShape and FrameIndexOfName |
| FileNames.BasenameSpec | scripts/classification.py:29-30 | `os.path.basename` is the longest suffix without '/', and it is either the whole path or preceded by '/' |
| FileNames.FirstFieldSpec | scripts/classification.py:29-30 | `split('_')[0]` is the longest prefix without '_', either the whole name or followed by '_' |
| FileNames.StripStartSpec | scripts/classification.py:29-30 | `int()` drops leading white space (ASCII tab, line feed, vertical tab, form feed, return and space, and the non-ASCII characters `str.isspace` accepts; not U+001C..U+001F): the result is a suffix, everything dropped is white space, and it starts with a non-space |
| FileNames.StripEndSpec | scripts/classification.py:29-30 | `int()` drops trailing white space, the same characters as at the start: the result is a prefix, everything dropped is white space, and it ends with a non-space |
| FileNames.ParseIntShape | scripts/classification.py:29-30 | whenever `int()` returns n, its argument is white space, an optional sign ('-' whenever n < 0), leading zeros, the decimal notation of the magnitude of n and white space, with at most 4300 digits; every other text raises ValueError |
| FileNames.ParseNumeral | scripts/classification.py:29-30 | conversely, `int()` accepts every such numeral and returns its digits' value, negated exactly when the sign is '-' |
| FileNames.NonNumeralRaises | scripts/classification.py:29-30 | `int()` raises on any text that starts with a character that is neither white space, a sign nor a digit (such as `abc`) |
| FileNames.ParseShowInt | scripts/classification.py:29-30 | `int()` reads back the decimal notation of every integer of at most 4300 digits, sign included |
| FileNames.ParseIgnoresPadding | scripts/classification.py:29-30 | white space around the number (the characters `int()` strips) does not change what `int()` reads |
| FileNames.DigitLimitRaises | scripts/classification.py:29-30 | `int()` raises on a string of more than 4300 decimal digits, however well formed |
| FileNames.SeparatorRaises | scripts/classification.py:29-30 | `int()` raises on any text that starts with one of the separators U+001C..U+001F, although `str.isspace` holds for them: they are not stripped |
| FileNames.FrameIndexOfConventionalName | scripts/classification.py:29-30 | a path `<dir>/<n>_<rest>` has synchronisation index n (written in at most 4300 digits) whatever the directory and the rest of the name |
| FileNames.FrameIndexShape | scripts/classification.py:29-30 | every path with an index is a directory part (empty or ending in '/'), a first field that is a numeral as `int()` accepts it (the shape ParseIntShape states) and either nothing or a '_' and the rest of the name |
| FileNames.FrameIndexOfName | scripts/classification.py:29-30 | conversely, the index of such a path is `int()` of its first field, and it raises exactly when `int()` raises on that field |
| FileNames.NonNumeralNameRaises | scripts/classification.py:29-30 | a file whose first field starts with a character other than white space, a sign or a digit (such as `/d/abc_cam3.png`) has no index, so the sort key raises ValueError |
| KeySort.Sort | scripts/classification.py:29-30 | the stable sort of keyed entries, insertion into the sorted tail in front of equal keys; specified by SortSortedPermutation and SortStable |
| KeySort.SortSortedPermutation | scripts/classification.py:29-30 | the sort puts the keyed entries in ascending key order and keeps exactly the input entries |
| KeySort.SortStable | scripts/classification.py:29-30 | the sort is stable: for every key, the entries carrying it keep their input order |
| KeySort.SortItemsPermutation | scripts/classification.py:29-30 | the sorted items are a permutation of the input items |
| KeySort.KeyAll | scripts/classification.py:29-30 | all keys are computed in order; success exactly when every key parses, then entry i pairs item i with its key; otherwise the error names the first item whose key raises |
| KeySort.SortBy | scripts/classification.py:29-30 | `sorted(xs, key=k)` succeeds exactly when every key parses and then returns a permutation of xs in ascending key order; otherwise it fails on the first unparsable item |
| KeySort.SortByStable | scripts/classification.py:29-30 | items of `sorted(xs, key=k)` that share a key appear in their input order |
| Indices.TrueIndices | scripts/classification.py:35-41 | the kept positions are strictly increasing, in range, all kept, and include every position whose flag holds |
| Classification.DetectChessboard | scripts/classification.py:11-23 | `detect_chessboard` returns its path unchanged; it answers "found" exactly when the image loads and the detector finds the board; a load failure is reported and answers "not found" |
| Classification.LoadFailureSkipsDetector | scripts/classification.py:13-16 | when the image does not load, the detector is never consulted: any two detectors give the same answer, (False, path) |
| Classification.SortByFrameIndex | scripts/classification.py:29-30 | each camera list is sorted ascending by the integer before the first `_` of the file name and is a permutation of the listing; a name without such an integer raises, naming the first one |
| Classification.SortByFrameIndexStable | scripts/classification.py:29-30 | files sharing a synchronisation index keep their listing order |
| Classification.Zip | scripts/classification.py:35 | `zip` pairs position i of both lists, for the first min(len3, len4) positions |
| Indices.FilterAt | scripts/classification.py:35-41 | a filtered sequence holds, at its k-th place, the element at the k-th kept position, and nothing else |
| Classification.ScanStep | scripts/classification.py:36-43 | one iteration: both sides examined, the pair kept when both are detected, otherwise reported; specified by StepPairs and StepWarnings |
| Classification.Scan | scripts/classification.py:35-43 | the selection loop over the zipped positions in order; specified by ScanPairsFilter, ScanKeepsDetected, ScanReportsMissed and ScanLog |
| Classification.ScanPairsFilter | scripts/classification.py:35-41 | the pairs the selection loop keeps are the zipped positions filtered by "detected on both sides" |
| Classification.ScanKeepsDetected | scripts/classification.py:35-41 | the selection loop keeps exactly the zipped positions detected on both sides, in increasing position order |
| Classification.ScanReportsMissed | scripts/classification.py:40-43 | every position failing on either side is reported once, by its two file names, in position order, and nothing else is reported as undetected |
| Classification.ScanLog | scripts/classification.py:35-43 | the loop prints, position by position in order, a load failure report for each side that does not load (left first) and then the pair warning exactly when the pair is dropped |
| Classification.SelectSorted | scripts/classification.py:32-45 | after sorting: at most min(len3, len4) pairs, and the count warning is in the log exactly when the lengths differ |
| Classification.SelectImages | scripts/classification.py:25-45 | `select_images` succeeds exactly when all names carry an index; it returns at most min(len3, len4) pairs and warns about the counts exactly when the lengths differ |
| Classification.SelectImagesPositions | scripts/classification.py:35-41 | the returned pairs are exactly (cam3[i], cam4[i]) of the sorted lists at the positions i detected on both sides, in increasing order: an order-preserving subsequence of the zipped lists |
| Classification.SelectImagesLog | scripts/classification.py:25-45 | everything `select_images` prints: the count warning exactly when the listings differ in length, then for each zipped position of the sorted listings, in order, the load failures of its sides and the pair warning when the pair is dropped |
| Classification.SelectedPairsDetected | scripts/classification.py:35-41 | every returned pair is a cam3 file and a cam4 file, with the board detected in both |
| Classification.SelectImagesKeepsOrReports | scripts/classification.py:35-43 | a position detected on both sides is always included; a position failing on either side always produces a warning naming both files |
| Calibration.Observation | scripts/calibration.py:23-31 | one image's contribution: its refined corners when it loads and the board is found, nothing otherwise; specified through CollectCorrespondences and DetectedCornersAt |
| Calibration.CollectCorrespondences | scripts/calibration.py:18-32 | the loop appends to objpoints and imgpoints in lockstep: equal lengths, one entry per detected image in input order, every objpoints entry the same grid, each imgpoints entry that image's refined corners; images without a detection contribute nothing; the first image that does not load stops it |
| Calibration.DetectedCornersAt | scripts/calibration.py:22-32 | the corners gathered path by path are, at place k, the refined corners of the k-th detected image |
| Calibration.CalibrateCamera | scripts/calibration.py:16-38 | no detection raises `ValueError` and the solver is not called; otherwise the solver receives one copy of the grid per detected image, the refined corners in the same order, and the size of the last image; an unreadable image crashes the run first |

## Left out

- OpenCV's numerics (`findChessboardCorners`, `cvtColor`, `cornerSubPix`, `calibrateCamera`, `getOptimalNewCameraMatrix`, `undistort`, `resize`) are parameters of the model, not modelled: they are floating-point foreign code.
- `scripts/distortion_removal.py` is not part of this model: it loads YAML, calls `cv.undistort`/`cv.resize` and displays images; its one invariant, output size equals input size, is enforced by the resize itself.
- YAML (`save_calibration`, `load_calibration`) and pickle persistence, all `print` formatting and the `__main__` blocks are I/O and are left out; the printed warnings are kept only as `Diagnostic` values.
- Directory listing (`glob.glob`) is not modelled: the selector takes each listing as a given sequence of paths, in whatever order the file system returned them.
- The solver's result is an opaque value; `rvecs`/`tvecs` and the split into `(ret, mtx, dist)` are not modelled.
- Object points are integers; the script stores them as float32, which represents 0..9 exactly.
- FileNames.ParseInt: Python's `int()` also accepts non-ASCII decimal digits (for example Arabic-Indic digits) and `_` between digits; the model accepts ASCII digits only. No `_` can occur in the field, which ends at the first `_`. The digit limit is fixed at its default of 4300; a limit changed with `sys.set_int_max_str_digits` or `PYTHONINTMAXSTRDIGITS` is not modelled. A file-name component has at most 255 bytes, so the limit cannot be reached from a directory listing.
- FileNames.Basename: POSIX separator '/' only; Windows separators are not modelled.
- FileNames.Path: file names that are not valid UTF-8 are outside the model. Python decodes them with `surrogateescape` into lone surrogates U+DC80..U+DCFF, which a Dafny `char` cannot hold; on such a name in the index field `int()` raises, a case the model cannot state.

=== FILE: calibration.dfy ===
/** Correspondence accumulation of `calibrate_camera`.

    For every image path in order the image is loaded, converted to grey, and searched
    for the chessboard; on success the board's object points and the sub-pixel refined
    corners are appended to `objpoints` and `imgpoints` in lockstep. With no detection
    at all the function raises before the solver is called; otherwise the solver gets
    both lists and the size of the last image converted. OpenCV's loader, corner finder,
    corner refiner, image size and solver enter as the parameters `load`, `find`,
    `refine`, `size` and `solve`.
 */
module Calibration {
  import opened Results
  import opened Pattern
  import opened Indices
  import FileNames

  type Path = FileNames.Path

  datatype CalibrationError =
    | ImageLoadCrash(path: Path)   // `cv.imread` gave None and `cv.cvtColor` raised on it
    | NoValidDetections            // the ValueError raised when no board was found

  /** What one image contributes: None when the board is not found, otherwise the
      refined corners. An image that does not load contributes nothing either, but the
      script crashes on it before looking. */
  function Observation<Image, Corners>(p: Path, load: Path -> Option<Image>,
                                       find: Image -> Option<Corners>,
                                       refine: (Image, Corners) -> Corners): Option<Corners>
  {
    match load(p)
    case None => None
    case Some(img) =>
      match find(img)
      case None => None
      case Some(corners) => Some(refine(img, corners))
  }

  /** Which of the paths yield a detection. */
  function DetectedFlags<Image, Corners>(paths: seq<Path>, load: Path -> Option<Image>,
                                         find: Image -> Option<Corners>,
                                         refine: (Image, Corners) -> Corners): (f: seq<bool>)
    ensures |f| == |paths|
    ensures forall i :: 0 <= i < |paths| ==> (f[i] <==> Observation(paths[i], load, find, refine).Some?)
  {
    seq(|paths|, i requires 0 <= i < |paths| => Observation(paths[i], load, find, refine).Some?)
  }

  /** The refined corners of the detected images, in path order. */
  function RefinedCorners<Image, Corners>(paths: seq<Path>, kept: seq<nat>,
                                          load: Path -> Option<Image>,
                                          find: Image -> Option<Corners>,
                                          refine: (Image, Corners) -> Corners): (c: seq<Corners>)
    requires forall k :: 0 <= k < |kept| ==>
               kept[k] < |paths| && Observation(paths[kept[k]], load, find, refine).Some?
    ensures |c| == |kept|
    ensures forall k :: 0 <= k < |kept| ==>
              Observation(paths[kept[k]], load, find, refine) == Some(c[k])
  {
    seq(|kept|, k requires 0 <= k < |kept| => Observation(paths[kept[k]], load, find, refine).value)
  }

  predicate AllLoad<Image>(paths: seq<Path>, load: Path -> Option<Image>)
  {
    forall i :: 0 <= i < |paths| ==> load(paths[i]).Some?
  }

  /** The refined corners of the detected images among `paths`, in path order, built
      the way the loop builds `imgpoints`: one path at a time, from the front. */
  function DetectedCorners<Image, Corners>(paths: seq<Path>, load: Path -> Option<Image>,
                                           find: Image -> Option<Corners>,
                                           refine: (Image, Corners) -> Corners): seq<Corners>
  {
    if |paths| == 0 then []
    else
      var n := |paths| - 1;
      var o := Observation(paths[n], load, find, refine);
      DetectedCorners(paths[..n], load, find, refine) + (if o.Some? then [o.value] else [])
  }

  lemma DetectedFlagsPrefix<Image, Corners>(paths: seq<Path>, n: nat,
                                            load: Path -> Option<Image>,
                                            find: Image -> Option<Corners>,
                                            refine: (Image, Corners) -> Corners)
    requires n <= |paths|
    ensures DetectedFlags(paths[..n], load, find, refine) == DetectedFlags(paths, load, find, refine)[..n]
  {
  }

  /** Element k of the gathered corners belongs to the k-th detected path. */
  lemma {:induction false} DetectedCornersAt<Image, Corners>(paths: seq<Path>,
                                                             load: Path -> Option<Image>,
                                                             find: Image -> Option<Corners>,
                                                             refine: (Image, Corners) -> Corners)
    ensures var kept := TrueIndices(DetectedFlags(paths, load, find, refine));
            && |DetectedCorners(paths, load, find, refine)| == |kept|
            && forall k :: 0 <= k < |kept| ==>
                 Observation(paths[kept[k]], load, find, refine)
                   == Some(DetectedCorners(paths, load, find, refine)[k])
  {
    if |paths| > 0 {
      var n := |paths| - 1;
      DetectedCornersAt(paths[..n], load, find, refine);
      var flags := DetectedFlags(paths, load, find, refine);
      DetectedFlagsPrefix(paths, n, load, find, refine);
      TrueIndicesStep(flags, n);
      assert flags[..n + 1] == flags;
      var kept, kept' := TrueIndices(flags), TrueIndices(flags[..n]);
      var c, c' := DetectedCorners(paths, load, find, refine), DetectedCorners(paths[..n], load, find, refine);
      forall k | 0 <= k < |kept|
        ensures Observation(paths[kept[k]], load, find, refine) == Some(c[k])
      {
        if k < |kept'| {
          assert c[k] == c'[k] && kept[k] == kept'[k];
          assert paths[..n][kept'[k]] == paths[kept[k]];
        } else {
          assert kept[k] == n && c[k] == Observation(paths[n], load, find, refine).value;
        }
      }
    }
  }

  /** The loop of `calibrate_camera`: walks the paths in order and appends the board's
      object points `objp` and the refined corners, in lockstep, for every detected image.
      `crash` is the first path that does not load, at which the script stops; `gray`
      is the last image converted. */
  method CollectCorrespondences<Image, Corners>(
    paths: seq<Path>,
    objp: seq<Point3>,
    load: Path -> Option<Image>,
    find: Image -> Option<Corners>,
    refine: (Image, Corners) -> Corners)
    returns (crash: Option<Path>, objpoints: seq<seq<Point3>>, imgpoints: seq<Corners>,
             gray: Option<Image>)
    ensures crash.Some? <==> !AllLoad(paths, load)
    ensures crash.Some? ==>
              exists i :: 0 <= i < |paths| && crash.value == paths[i] && load(paths[i]).None?
                          && AllLoad(paths[..i], load)
    ensures crash.None? ==>
              var kept := TrueIndices(DetectedFlags(paths, load, find, refine));
              && |objpoints| == |kept|
              && (forall k :: 0 <= k < |objpoints| ==> objpoints[k] == objp)
              && |imgpoints| == |kept|
              && (forall k :: 0 <= k < |kept| ==>
                    Observation(paths[kept[k]], load, find, refine) == Some(imgpoints[k]))
              && (|paths| > 0 ==> gray == load(paths[|paths| - 1]))
  {
    objpoints, imgpoints, gray := [], [], None;
    var i := 0;
    while i < |paths|
      invariant 0 <= i <= |paths|
      invariant AllLoad(paths[..i], load)
      invariant i > 0 ==> gray == load(paths[i - 1])
      invariant imgpoints == DetectedCorners(paths[..i], load, find, refine)
      invariant |objpoints| == |imgpoints|
      invariant forall k :: 0 <= k < |objpoints| ==> objpoints[k] == objp
    {
      var fname := paths[i];
      var img := load(fname);
      if img.None? {
        return Some(fname), objpoints, imgpoints, gray;
      }
      gray := img;
      var found := find(img.value);
      if found.Some? {
        objpoints := objpoints + [objp];
        imgpoints := imgpoints + [refine(img.value, found.value)];
      }
      assert paths[..i + 1] == paths[..i] + [fname];
      i := i + 1;
    }
    assert paths[..i] == paths;
    DetectedCornersAt(paths, load, find, refine);
    crash := None;
  }

  /** `calibrate_camera(image_paths)`: the correspondences of the detected images go to
      the solver; a crash or an empty collection stops before it. */
  method CalibrateCamera<Image, Corners, Size, Fit>(
    paths: seq<Path>,
    load: Path -> Option<Image>,
    find: Image -> Option<Corners>,
    refine: (Image, Corners) -> Corners,
    size: Image -> Size,
    solve: (seq<seq<Point3>>, seq<Corners>, Size) -> Fit)
    returns (r: Result<Fit, CalibrationError>)
    // the first image that does not load crashes the run
    ensures r.Err? && r.error.ImageLoadCrash? <==> !AllLoad(paths, load)
    ensures r.Err? && r.error.ImageLoadCrash? ==>
              exists i :: 0 <= i < |paths| && r.error.path == paths[i] && load(paths[i]).None?
                          && AllLoad(paths[..i], load)
    // no detection at all raises, and the solver is not called
    ensures r == Err(NoValidDetections) <==>
              AllLoad(paths, load) && TrueIndices(DetectedFlags(paths, load, find, refine)) == []
    // otherwise the solver sees one copy of the board per detected image, in lockstep
    // with that image's refined corners, and the size of the last image
    ensures r.Ok? ==>
              var kept := TrueIndices(DetectedFlags(paths, load, find, refine));
              && AllLoad(paths, load) && |kept| > 0
              && r.value == solve(seq(|kept|, k => ObjectPoints()),
                                  RefinedCorners(paths, kept, load, find, refine),
                                  size(load(paths[|paths| - 1]).value))
  {
    var objp := ObjectPoints();
    var crash, objpoints, imgpoints, gray := CollectCorrespondences(paths, objp, load, find, refine);
    if crash.Some? {
      return Err(ImageLoadCrash(crash.value));
    }
    if |objpoints| == 0 {
      return Err(NoValidDetections);
    }
    ghost var kept := TrueIndices(DetectedFlags(paths, load, find, refine));
    assert objpoints == seq(|kept|, k => ObjectPoints());
    assert imgpoints == RefinedCorners(paths, kept, load, find, refine);
    r := Ok(solve(objpoints, imgpoints, size(gray.value)));
  }
}

=== FILE: classification.dfy ===
/** Stereo pair selection (`select_images`) and its chessboard test (`detect_chessboard`).

    The two cameras' file lists (as the directory listing returns them) are ordered by
    synchronisation index, zipped position by position up to the shorter list, and a
    position is kept as a (left, right) pair only when the chessboard is found in both
    images. What the script prints is modelled as a log of diagnostics. Image loading and
    the chessboard detector are OpenCV calls and enter as the parameters `load` and
    `find`; the selector only looks at whether `find` succeeded.
 */
module Classification {
  import opened Results
  import opened FileNames
  import opened KeySort
  import opened Indices

  /** The warnings the selector prints. */
  datatype Diagnostic =
    | FailedToLoad(path: Path)
    | UnequalCounts(left: nat, right: nat)
    | PairNotDetected(leftName: string, rightName: string)

  /** `int()` raising ValueError on the file-name prefix of this path, inside `sorted`. */
  datatype SelectionError = BadFrameIndex(path: Path)

  /** What `detect_chessboard` returns, `(ret, image_path)`, plus what it printed. */
  datatype Detection = Detection(found: bool, path: Path, log: seq<Diagnostic>)

  datatype Selection = Selection(pairs: seq<(Path, Path)>, log: seq<Diagnostic>)

  /** `detect_chessboard`: load the image; on a load failure report it and answer "not
      found"; otherwise answer whether the detector found the board. */
  function DetectChessboard<Image, Corners>(path: Path, load: Path -> Option<Image>,
                                            find: Image -> Option<Corners>): (d: Detection)
    ensures d.path == path
    ensures d.found <==> load(path).Some? && find(load(path).value).Some?
    ensures load(path).None? ==> d.log == [FailedToLoad(path)]
    ensures load(path).Some? ==> d.log == []
  {
    match load(path)
    case None => Detection(false, path, [FailedToLoad(path)])
    case Some(img) => Detection(find(img).Some?, path, [])
  }

  /** When the image does not load, the detector is never consulted: any two detectors
      give the same answer, and that answer is "not found". */
  lemma LoadFailureSkipsDetector<Image, Corners>(path: Path, load: Path -> Option<Image>,
                                                 find1: Image -> Option<Corners>,
                                                 find2: Image -> Option<Corners>)
    requires load(path).None?
    ensures DetectChessboard(path, load, find1) == DetectChessboard(path, load, find2)
    ensures DetectChessboard(path, load, find1) == Detection(false, path, [FailedToLoad(path)])
  {
  }

  /** Every file name of the listing starts with a synchronisation index; exactly then
      does sorting the listing succeed. */
  predicate Indexed(paths: seq<Path>)
  {
    forall i :: 0 <= i < |paths| ==> FrameIndex(paths[i]).Some?
  }

  /** `sorted(paths, key=frame index)`: ascending by synchronisation index and a
      permutation of the listing, or the ValueError of the first name without an index. */
  function SortByFrameIndex(paths: seq<Path>): (r: Result<seq<Path>, SelectionError>)
    ensures r.Ok? <==> forall i :: 0 <= i < |paths| ==> FrameIndex(paths[i]).Some?
    ensures r.Ok? ==> multiset(r.value) == multiset(paths) && |r.value| == |paths|
    ensures r.Ok? ==> forall i :: 0 <= i < |r.value| ==> FrameIndex(r.value[i]).Some?
    ensures r.Ok? ==> forall i, j :: 0 <= i < j < |r.value| ==>
                        FrameIndex(r.value[i]).value <= FrameIndex(r.value[j]).value
    ensures r.Err? ==> exists i :: 0 <= i < |paths| && r.error == BadFrameIndex(paths[i])
                                   && FrameIndex(paths[i]).None?
                                   && forall j :: 0 <= j < i ==> FrameIndex(paths[j]).Some?
  {
    match SortBy(paths, FrameIndex)
    case Err(p) => Err(BadFrameIndex(p))
    case Ok(sorted) => Ok(sorted)
  }

  /** Python's sort is stable: files that share a synchronisation index keep the order
      in which the directory listing gave them. */
  lemma SortByFrameIndexStable(paths: seq<Path>, k: int)
    requires SortByFrameIndex(paths).Ok?
    ensures WithKeyValue(SortByFrameIndex(paths).value, FrameIndex, k)
            == WithKeyValue(paths, FrameIndex, k)
  {
    SortByStable(paths, FrameIndex, k);
  }

  /** Python's `zip`: position by position, as long as the shorter list. */
  function Zip<A, B>(a: seq<A>, b: seq<B>): (z: seq<(A, B)>)
    ensures |z| == if |a| <= |b| then |a| else |b|
    ensures forall i :: 0 <= i < |z| ==> z[i] == (a[i], b[i])
  {
    if |a| == 0 || |b| == 0 then [] else [(a[0], b[0])] + Zip(a[1..], b[1..])
  }

  /** Both images of a zipped position show the chessboard. */
  predicate BothDetected<Image, Corners>(pair: (Path, Path), load: Path -> Option<Image>,
                                         find: Image -> Option<Corners>)
  {
    DetectChessboard(pair.0, load, find).found && DetectChessboard(pair.1, load, find).found
  }

  /** One iteration of the selection loop: both sides are always examined, the pair is
      kept when both are detected, and otherwise both file names are reported. */
  function ScanStep<Image, Corners>(pair: (Path, Path), load: Path -> Option<Image>,
                                    find: Image -> Option<Corners>): Selection
  {
    var left := DetectChessboard(pair.0, load, find);
    var right := DetectChessboard(pair.1, load, find);
    if left.found && right.found then
      Selection([(left.path, right.path)], left.log + right.log)
    else
      Selection([], left.log + right.log + [MissedWarning(pair)])
  }

  /** The selection loop over the zipped positions, from the first to the last. */
  function Scan<Image, Corners>(z: seq<(Path, Path)>, load: Path -> Option<Image>,
                                find: Image -> Option<Corners>): Selection
  {
    if |z| == 0 then Selection([], [])
    else
      var before := Scan(z[..|z| - 1], load, find);
      var step := ScanStep(z[|z| - 1], load, find);
      Selection(before.pairs + step.pairs, before.log + step.log)
  }

  /** Which zipped positions are detected on both sides. */
  function BothDetectedFlags<Image, Corners>(z: seq<(Path, Path)>, load: Path -> Option<Image>,
                                             find: Image -> Option<Corners>): (f: seq<bool>)
    ensures |f| == |z|
    ensures forall i :: 0 <= i < |z| ==> (f[i] <==> BothDetected(z[i], load, find))
  {
    if |z| == 0 then []
    else BothDetectedFlags(z[..|z| - 1], load, find) + [BothDetected(z[|z| - 1], load, find)]
  }

  /** Which zipped positions fail on at least one side. */
  function MissedFlags<Image, Corners>(z: seq<(Path, Path)>, load: Path -> Option<Image>,
                                       find: Image -> Option<Corners>): (f: seq<bool>)
    ensures |f| == |z|
    ensures forall i :: 0 <= i < |z| ==> (f[i] <==> !BothDetected(z[i], load, find))
  {
    if |z| == 0 then []
    else MissedFlags(z[..|z| - 1], load, find) + [!BothDetected(z[|z| - 1], load, find)]
  }

  /** The "not detected" warnings of a log, in order. */
  function NotDetectedWarnings(log: seq<Diagnostic>): (w: seq<Diagnostic>)
    ensures forall k :: 0 <= k < |w| ==> w[k].PairNotDetected?
  {
    if |log| == 0 then []
    else NotDetectedWarnings(log[..|log| - 1])
         + (if log[|log| - 1].PairNotDetected? then [log[|log| - 1]] else [])
  }

  lemma {:induction false} NotDetectedWarningsAppend(a: seq<Diagnostic>, b: seq<Diagnostic>)
    ensures NotDetectedWarnings(a + b) == NotDetectedWarnings(a) + NotDetectedWarnings(b)
  {
    if |b| > 0 {
      var b' := b[..|b| - 1];
      assert (a + b)[..|a + b| - 1] == a + b';
      NotDetectedWarningsAppend(a, b');
    } else {
      assert a + b == a;
    }
  }

  /** The warning printed for a zipped position that is dropped. */
  function MissedWarning(pair: (Path, Path)): Diagnostic
  {
    PairNotDetected(Basename(pair.0), Basename(pair.1))
  }

  /** The warnings printed for a sequence of dropped positions. */
  function MissedWarnings(ps: seq<(Path, Path)>): (w: seq<Diagnostic>)
    ensures |w| == |ps|
    ensures forall k :: 0 <= k < |ps| ==> w[k] == MissedWarning(ps[k])
  {
    if |ps| == 0 then [] else MissedWarnings(ps[..|ps| - 1]) + [MissedWarning(ps[|ps| - 1])]
  }

  lemma MissedWarningsAppend(a: seq<(Path, Path)>, b: seq<(Path, Path)>)
    requires |b| <= 1
    ensures MissedWarnings(a + b) == MissedWarnings(a) + MissedWarnings(b)
  {
    if |b| == 1 {
      assert (a + b)[..|a|] == a;
    } else {
      assert a + b == a;
    }
  }

  /** One iteration keeps its position exactly when both sides are detected. */
  lemma StepPairs<Image, Corners>(pair: (Path, Path), load: Path -> Option<Image>,
                                  find: Image -> Option<Corners>)
    ensures ScanStep(pair, load, find).pairs
            == if BothDetected(pair, load, find) then [pair] else []
  {
  }

  lemma {:induction false} ScanPairsFilter<Image, Corners>(z: seq<(Path, Path)>,
                                                          load: Path -> Option<Image>,
                                                          find: Image -> Option<Corners>)
    ensures Scan(z, load, find).pairs == Filter(z, BothDetectedFlags(z, load, find))
  {
    if |z| > 0 {
      var n := |z| - 1;
      ScanPairsFilter(z[..n], load, find);
      StepPairs(z[n], load, find);
      var flags := BothDetectedFlags(z, load, find);
      assert flags[..n] == BothDetectedFlags(z[..n], load, find);
      assert z[..n][..n] == z[..n];
    }
  }

  /** The pairs kept are exactly the zipped positions detected on both sides, in
      increasing position order. */
  lemma {:induction false} ScanKeepsDetected<Image, Corners>(z: seq<(Path, Path)>,
                                          load: Path -> Option<Image>,
                                          find: Image -> Option<Corners>)
    ensures var kept := TrueIndices(BothDetectedFlags(z, load, find));
            && |Scan(z, load, find).pairs| == |kept|
            && forall k :: 0 <= k < |kept| ==> Scan(z, load, find).pairs[k] == z[kept[k]]
  {
    ScanPairsFilter(z, load, find);
    FilterAt(z, BothDetectedFlags(z, load, find));
  }

  lemma {:induction false} ScanWarningsFilter<Image, Corners>(z: seq<(Path, Path)>,
                                                             load: Path -> Option<Image>,
                                                             find: Image -> Option<Corners>)
    ensures NotDetectedWarnings(Scan(z, load, find).log)
            == MissedWarnings(Filter(z, MissedFlags(z, load, find)))
  {
    if |z| > 0 {
      var n := |z| - 1;
      ScanWarningsFilter(z[..n], load, find);
      NotDetectedWarningsAppend(Scan(z[..n], load, find).log, ScanStep(z[n], load, find).log);
      StepWarnings(z[n], load, find);
      var flags := MissedFlags(z, load, find);
      assert flags[..n] == MissedFlags(z[..n], load, find);
      var f' := Filter(z[..n], flags[..n]);
      var tail := if flags[n] then [z[n]] else [];
      assert Filter(z, flags) == f' + tail;
      MissedWarningsAppend(f', tail);
    }
  }

  /** Every dropped position is reported once, by the names of its two files, in
      position order, and nothing else is reported as undetected. */
  lemma {:induction false} ScanReportsMissed<Image, Corners>(z: seq<(Path, Path)>,
                                          load: Path -> Option<Image>,
                                          find: Image -> Option<Corners>)
    ensures var missed := TrueIndices(MissedFlags(z, load, find));
            var w := NotDetectedWarnings(Scan(z, load, find).log);
            && |w| == |missed|
            && forall k :: 0 <= k < |missed| ==> w[k] == MissedWarning(z[missed[k]])
  {
    ScanWarningsFilter(z, load, find);
    FilterAt(z, MissedFlags(z, load, find));
  }

  /** One iteration reports its position as undetected exactly when it drops it. */
  lemma StepWarnings<Image, Corners>(pair: (Path, Path), load: Path -> Option<Image>,
                                     find: Image -> Option<Corners>)
    ensures NotDetectedWarnings(ScanStep(pair, load, find).log)
            == if BothDetected(pair, load, find) then [] else [MissedWarning(pair)]
  {
    var left := DetectChessboard(pair.0, load, find);
    var right := DetectChessboard(pair.1, load, find);
    NotDetectedWarningsAppend(left.log, right.log);
    assert NotDetectedWarnings(left.log) == [];
    assert NotDetectedWarnings(right.log) == [];
    if !BothDetected(pair, load, find) {
      NotDetectedWarningsAppend(left.log + right.log, [MissedWarning(pair)]);
      assert NotDetectedWarnings([MissedWarning(pair)]) == [MissedWarning(pair)];
    }
  }

  /** The selector never reports a count mismatch from inside the loop. */
  lemma {:induction false} ScanLogHasNoCountWarning<Image, Corners>(z: seq<(Path, Path)>,
                                                                   load: Path -> Option<Image>,
                                                                   find: Image -> Option<Corners>)
    ensures forall k :: 0 <= k < |Scan(z, load, find).log| ==> !Scan(z, load, find).log[k].UnequalCounts?
  {
    if |z| > 0 {
      ScanLogHasNoCountWarning(z[..|z| - 1], load, find);
    }
  }

  /** What the loop prints for one zipped position, said without the loop: a load
      failure report for each side that does not load, left first, then the pair
      warning exactly when the position is dropped. */
  function PositionLog<Image, Corners>(pair: (Path, Path), load: Path -> Option<Image>,
                                       find: Image -> Option<Corners>): seq<Diagnostic>
  {
    (if load(pair.0).None? then [FailedToLoad(pair.0)] else [])
    + (if load(pair.1).None? then [FailedToLoad(pair.1)] else [])
    + (if BothDetected(pair, load, find) then [] else [MissedWarning(pair)])
  }

  function PositionLogs<Image, Corners>(z: seq<(Path, Path)>, load: Path -> Option<Image>,
                                        find: Image -> Option<Corners>): seq<seq<Diagnostic>>
  {
    seq(|z|, i requires 0 <= i < |z| => PositionLog(z[i], load, find))
  }

  /** The lists of ls joined in order. */
  function Concat<T>(ls: seq<seq<T>>): seq<T>
  {
    if |ls| == 0 then [] else Concat(ls[..|ls| - 1]) + ls[|ls| - 1]
  }

  /** The loop's log is the logs of the positions, in position order. */
  lemma {:induction false} ScanLog<Image, Corners>(z: seq<(Path, Path)>,
                                                  load: Path -> Option<Image>,
                                                  find: Image -> Option<Corners>)
    ensures Scan(z, load, find).log == Concat(PositionLogs(z, load, find))
  {
    if |z| > 0 {
      var n := |z| - 1;
      ScanLog(z[..n], load, find);
      var logs := PositionLogs(z, load, find);
      assert logs[..n] == PositionLogs(z[..n], load, find);
      assert ScanStep(z[n], load, find).log == logs[n];
    }
  }

  /** The whole printed output of `select_images`: the count warning exactly when the
      two listings differ in length, then, position by position over the zip of the
      sorted listings, the load failures and the pair warning of that position. */
  lemma SelectImagesLog<Image, Corners>(cam3: seq<Path>, cam4: seq<Path>,
                                        load: Path -> Option<Image>,
                                        find: Image -> Option<Corners>)
    requires Indexed(cam3) && Indexed(cam4)
    ensures var z := Zip(SortByFrameIndex(cam3).value, SortByFrameIndex(cam4).value);
            SelectImages(cam3, cam4, load, find).value.log
              == (if |cam3| != |cam4| then [UnequalCounts(|cam3|, |cam4|)] else [])
                 + Concat(PositionLogs(z, load, find))
  {
    SelectImagesScan(cam3, cam4, load, find);
    ScanLog(Zip(SortByFrameIndex(cam3).value, SortByFrameIndex(cam4).value), load, find);
  }

  /** The body of `select_images` after sorting: warn about unequal lengths, then run
      the selection loop over the zipped listings. */
  function SelectSorted<Image, Corners>(left: seq<Path>, right: seq<Path>,
                                        load: Path -> Option<Image>,
                                        find: Image -> Option<Corners>): (sel: Selection)
    ensures |sel.pairs| <= |left| && |sel.pairs| <= |right|
    ensures UnequalCounts(|left|, |right|) in sel.log <==> |left| != |right|
  {
    var warn := if |left| != |right| then [UnequalCounts(|left|, |right|)] else [];
    var s := Scan(Zip(left, right), load, find);
    ScanKeepsDetected(Zip(left, right), load, find);
    ScanLogHasNoCountWarning(Zip(left, right), load, find);
    Selection(s.pairs, warn + s.log)
  }

  /** `select_images`: sort both listings, warn about unequal lengths, and keep the
      zipped positions detected on both sides. */
  function SelectImages<Image, Corners>(cam3: seq<Path>, cam4: seq<Path>,
                                        load: Path -> Option<Image>,
                                        find: Image -> Option<Corners>)
    : (r: Result<Selection, SelectionError>)
    ensures r.Ok? <==> (forall i :: 0 <= i < |cam3| ==> FrameIndex(cam3[i]).Some?)
                       && (forall i :: 0 <= i < |cam4| ==> FrameIndex(cam4[i]).Some?)
    ensures r.Ok? ==> |r.value.pairs| <= |cam3| && |r.value.pairs| <= |cam4|
    ensures r.Ok? ==> (UnequalCounts(|cam3|, |cam4|) in r.value.log <==> |cam3| != |cam4|)
  {
    match SortByFrameIndex(cam3)
    case Err(e) => Err(e)
    case Ok(left) =>
      match SortByFrameIndex(cam4)
      case Err(e) => Err(e)
      case Ok(right) => Ok(SelectSorted(left, right, load, find))
  }

  /** The selected pairs are exactly the positions of the two sorted listings at which
      both images are detected, in increasing position order. */
  lemma SelectImagesPositions<Image, Corners>(cam3: seq<Path>, cam4: seq<Path>,
                                              load: Path -> Option<Image>,
                                              find: Image -> Option<Corners>)
    requires Indexed(cam3) && Indexed(cam4)
    ensures var left, right := SortByFrameIndex(cam3).value, SortByFrameIndex(cam4).value;
            var kept := TrueIndices(BothDetectedFlags(Zip(left, right), load, find));
            var pairs := SelectImages(cam3, cam4, load, find).value.pairs;
            && |pairs| == |kept|
            && forall k :: 0 <= k < |kept| ==> pairs[k] == (left[kept[k]], right[kept[k]])
  {
    var left, right := SortByFrameIndex(cam3).value, SortByFrameIndex(cam4).value;
    ScanKeepsDetected(Zip(left, right), load, find);
  }

  /** Every selected pair is made of a cam3 file and a cam4 file, and the chessboard is
      detected in both. */
  lemma SelectedPairsDetected<Image, Corners>(cam3: seq<Path>, cam4: seq<Path>,
                                              load: Path -> Option<Image>,
                                              find: Image -> Option<Corners>)
    requires Indexed(cam3) && Indexed(cam4)
    ensures var pairs := SelectImages(cam3, cam4, load, find).value.pairs;
            forall k :: 0 <= k < |pairs| ==>
              && pairs[k].0 in cam3 && pairs[k].1 in cam4
              && BothDetected(pairs[k], load, find)
  {
    SelectImagesScan(cam3, cam4, load, find);
    var left, right := SortByFrameIndex(cam3).value, SortByFrameIndex(cam4).value;
    SortedPairsDetected(left, right, cam3, cam4, load, find);
  }

  /** A successful selection is the selection loop over the two sorted listings, after
      the count warning. */
  lemma SelectImagesScan<Image, Corners>(cam3: seq<Path>, cam4: seq<Path>,
                                         load: Path -> Option<Image>,
                                         find: Image -> Option<Corners>)
    requires Indexed(cam3) && Indexed(cam4)
    ensures SortByFrameIndex(cam3).Ok? && SortByFrameIndex(cam4).Ok?
    ensures var left, right := SortByFrameIndex(cam3).value, SortByFrameIndex(cam4).value;
            var s := Scan(Zip(left, right), load, find);
            var warn := if |cam3| != |cam4| then [UnequalCounts(|cam3|, |cam4|)] else [];
            SelectImages(cam3, cam4, load, find).value == Selection(s.pairs, warn + s.log)
  {
  }

  lemma SortedPairsDetected<Image, Corners>(left: seq<Path>, right: seq<Path>,
                                            cam3: seq<Path>, cam4: seq<Path>,
                                            load: Path -> Option<Image>,
                                            find: Image -> Option<Corners>)
    requires multiset(left) == multiset(cam3) && multiset(right) == multiset(cam4)
    ensures var pairs := Scan(Zip(left, right), load, find).pairs;
            forall k :: 0 <= k < |pairs| ==>
              && pairs[k].0 in cam3 && pairs[k].1 in cam4
              && BothDetected(pairs[k], load, find)
  {
    var z := Zip(left, right);
    var pairs := Scan(z, load, find).pairs;
    var kept := TrueIndices(BothDetectedFlags(z, load, find));
    ScanKeepsDetected(z, load, find);
    forall k | 0 <= k < |pairs|
      ensures pairs[k].0 in cam3 && pairs[k].1 in cam4 && BothDetected(pairs[k], load, find)
    {
      var i := kept[k];
      assert pairs[k] == z[i] == (left[i], right[i]);
      PermutationMember(left, cam3, i);
      PermutationMember(right, cam4, i);
    }
  }

  lemma PermutationMember<T>(s: seq<T>, t: seq<T>, i: nat)
    requires multiset(s) == multiset(t) && i < |s|
    ensures s[i] in t
  {
    assert s[i] in multiset(s);
  }

  /** A position of the sorted listings detected on both sides is always selected, and
      one that fails on either side is always reported by its two file names. */
  lemma SelectImagesKeepsOrReports<Image, Corners>(cam3: seq<Path>, cam4: seq<Path>,
                                                   load: Path -> Option<Image>,
                                                   find: Image -> Option<Corners>, i: nat)
    requires Indexed(cam3) && Indexed(cam4)
    requires i < |cam3| && i < |cam4|
    ensures var left, right := SortByFrameIndex(cam3).value, SortByFrameIndex(cam4).value;
            var sel := SelectImages(cam3, cam4, load, find).value;
            && (BothDetected((left[i], right[i]), load, find) ==> (left[i], right[i]) in sel.pairs)
            && (!BothDetected((left[i], right[i]), load, find) ==>
                  MissedWarning((left[i], right[i])) in sel.log)
  {
    var left, right := SortByFrameIndex(cam3).value, SortByFrameIndex(cam4).value;
    var z := Zip(left, right);
    var s := Scan(z, load, find);
    var sel := SelectImages(cam3, cam4, load, find).value;
    if BothDetected(z[i], load, find) {
      ScanKeepsDetected(z, load, find);
      var kept := TrueIndices(BothDetectedFlags(z, load, find));
      var k :| 0 <= k < |kept| && kept[k] == i;
      assert s.pairs[k] == z[i];
    } else {
      ScanReportsMissed(z, load, find);
      var missed := TrueIndices(MissedFlags(z, load, find));
      var k :| 0 <= k < |missed| && missed[k] == i;
      var w := NotDetectedWarnings(s.log);
      assert w[k] == MissedWarning(z[i]);
      NotDetectedWarningsIn(s.log, k);
    }
  }

  lemma {:induction false} NotDetectedWarningsIn(log: seq<Diagnostic>, k: nat)
    requires k < |NotDetectedWarnings(log)|
    ensures NotDetectedWarnings(log)[k] in log
  {
    var n := |log| - 1;
    NotDetectedWarningsAppend(log[..n], [log[n]]);
    assert log[..n] + [log[n]] == log;
    if k < |NotDetectedWarnings(log[..n])| {
      NotDetectedWarningsIn(log[..n], k);
    }
  }
}

=== FILE: filenames.dfy ===
/** The file-name convention that carries the synchronisation index.

    Image files are named `<index>_cam<N>.png`; the sort key of a path is
    `int(os.path.basename(path).split('_')[0])`. This module models the three steps:
    POSIX `basename` (text after the last '/'), the first `_`-separated field, and
    Python's `int()` on a string in base 10 (surrounding white space allowed, one
    optional sign, at least one digit, nothing else).
 */
module FileNames {
  import opened Results

  /** A path as a Python `str`; names that are not valid UTF-8 (lone surrogates) are not
      represented. */
  type Path = string

  /** `os.path.basename`: the text after the last '/', or the whole path if it has none. */
  function Basename(p: Path): string
  {
    if |p| == 0 then ""
    else if p[|p| - 1] == '/' then ""
    else Basename(p[..|p| - 1]) + [p[|p| - 1]]
  }

  /** `s.split('_')[0]`: the text before the first '_', or all of s if it has none. */
  function FirstField(s: string): string
  {
    if |s| == 0 then ""
    else if s[0] == '_' then ""
    else [s[0]] + FirstField(s[1..])
  }

  /** The characters Python's `int()` strips from both ends of its argument. CPython
      first maps every non-ASCII character for which `str.isspace` holds to a space,
      leaves ASCII alone, and then skips only ASCII tab, line feed, vertical tab, form
      feed, return and space. So the separators U+001C..U+001F, although `str.isspace`
      holds for them, are not stripped and make `int()` raise. */
  predicate IsSpace(c: char)
  {
    || '\t' <= c <= '\r'                  // tab, line feed, vertical tab, form feed, return
    || c == ' ' || c == '\U{85}' || c == '\U{A0}' || c == '\U{1680}'
    || '\U{2000}' <= c <= '\U{200A}'      // the typographic spaces
    || c == '\U{2028}' || c == '\U{2029}' || c == '\U{202F}' || c == '\U{205F}'
    || c == '\U{3000}'
  }

  predicate IsDigit(c: char)
  {
    '0' <= c <= '9'
  }

  function DigitValue(c: char): nat
    requires IsDigit(c)
  {
    (c as int) - ('0' as int)
  }

  function DigitChar(d: nat): (c: char)
    requires d < 10
    ensures IsDigit(c) && DigitValue(c) == d
  {
    ('0' as int + d) as char
  }

  predicate AllDigits(s: string)
  {
    forall i :: 0 <= i < |s| ==> IsDigit(s[i])
  }

  predicate AllSpace(s: string)
  {
    forall i :: 0 <= i < |s| ==> IsSpace(s[i])
  }

  predicate AllZeros(s: string)
  {
    forall i :: 0 <= i < |s| ==> s[i] == '0'
  }

  /** Leading white space removed. */
  function StripStart(s: string): string
  {
    if |s| > 0 && IsSpace(s[0]) then StripStart(s[1..]) else s
  }

  /** Trailing white space removed. */
  function StripEnd(s: string): string
  {
    if |s| > 0 && IsSpace(s[|s| - 1]) then StripEnd(s[..|s| - 1]) else s
  }

  /** `str.strip()`. */
  function Strip(s: string): string
  {
    StripEnd(StripStart(s))
  }

  /** The number written by a string of decimal digits, most significant first. */
  function DigitsValue(s: string): nat
    requires AllDigits(s)
  {
    if |s| == 0 then 0 else 10 * DigitsValue(s[..|s| - 1]) + DigitValue(s[|s| - 1])
  }

  /** Python's `int(s)` for a string s in base 10: None stands for the ValueError. */
  function ParseInt(s: string): Option<int>
  {
    ParseStripped(Strip(s))
  }

  /** The default of `sys.get_int_max_str_digits()`: a base-10 `int()` of more digits
      raises ValueError (CPython 3.11 on, and the security releases of 3.7 to 3.10). */
  const MaxStrDigits: nat := 4300

  /** `int()` once the white space is gone: one optional sign, then decimal digits only,
      at most MaxStrDigits of them. */
  function ParseStripped(t: string): Option<int>
  {
    var neg := |t| > 0 && t[0] == '-';
    var body := if |t| > 0 && (t[0] == '+' || t[0] == '-') then t[1..] else t;
    if |body| > 0 && AllDigits(body) && |body| <= MaxStrDigits then
      var v: int := if neg then -(DigitsValue(body) as int) else DigitsValue(body);
      Some(v)
    else
      None
  }

  /** The synchronisation index of an image path, the sort key of the pair selector. */
  function FrameIndex(p: Path): Option<int>
  {
    ParseInt(FirstField(Basename(p)))
  }

  /** Decimal notation of a natural number, without leading zeros. */
  function ShowNat(n: nat): (s: string)
    ensures |s| > 0 && AllDigits(s)
  {
    if n < 10 then [DigitChar(n)] else ShowNat(n / 10) + [DigitChar(n % 10)]
  }

  /** Decimal notation of an integer, with a '-' when it is negative. */
  function ShowInt(n: int): (s: string)
    ensures |s| > 0
  {
    if n < 0 then "-" + ShowNat(-n) else ShowNat(n)
  }

  /** `basename` is the longest suffix of the path without '/': either the whole path or
      the text after a '/'. */
  lemma {:induction false} BasenameSpec(p: Path)
    ensures var b := Basename(p);
            && |b| <= |p| && b == p[|p| - |b|..]
            && '/' !in b
            && (|b| < |p| ==> p[|p| - |b| - 1] == '/')
  {
    if |p| > 0 && p[|p| - 1] != '/' {
      BasenameSpec(p[..|p| - 1]);
    }
  }

  /** `split('_')[0]` is the longest prefix without '_': either the whole string or the
      text before a '_'. */
  lemma {:induction false} FirstFieldSpec(s: string)
    ensures var f := FirstField(s);
            && |f| <= |s| && f == s[..|f|]
            && '_' !in f
            && (|f| < |s| ==> s[|f|] == '_')
  {
    if |s| > 0 && s[0] != '_' {
      FirstFieldSpec(s[1..]);
    }
  }

  /** Leading strip drops white space only, and stops at the first other character. */
  lemma {:induction false} StripStartSpec(s: string)
    ensures var t := StripStart(s);
            && |t| <= |s| && t == s[|s| - |t|..]
            && (forall i :: 0 <= i < |s| - |t| ==> IsSpace(s[i]))
            && (|t| > 0 ==> !IsSpace(t[0]))
  {
    if |s| > 0 && IsSpace(s[0]) {
      StripStartSpec(s[1..]);
    }
  }

  /** Trailing strip drops white space only, and stops at the last other character. */
  lemma {:induction false} StripEndSpec(s: string)
    ensures var t := StripEnd(s);
            && |t| <= |s| && t == s[..|t|]
            && (forall i :: |t| <= i < |s| ==> IsSpace(s[i]))
            && (|t| > 0 ==> !IsSpace(t[|t| - 1]))
  {
    if |s| > 0 && IsSpace(s[|s| - 1]) {
      StripEndSpec(s[..|s| - 1]);
    }
  }

  /** Reading back the digits of n gives n. */
  lemma {:induction false} ShowNatValue(n: nat)
    ensures DigitsValue(ShowNat(n)) == n
  {
    var s := ShowNat(n);
    if n >= 10 {
      ShowNatValue(n / 10);
      assert s[..|s| - 1] == ShowNat(n / 10);
    }
  }

  /** The ASCII separators U+001C..U+001F are not white space to `int()`: a name that
      starts with one has no index, whatever follows. */
  lemma SeparatorRaises(c: char, s: string)
    requires '\U{1C}' <= c <= '\U{1F}'
    ensures ParseInt([c] + s) == None
  {
    var u := [c] + s;
    assert StripStart(u) == u;
    StripEndSpec(u);
    assert !IsSpace(u[0]);
    var t := StripEnd(u);
    assert t[0] == c && !IsDigit(t[0]);
  }

  /** A string whose ends are not white space is left alone by `strip`. */
  lemma StripUnchanged(s: string)
    requires |s| > 0 && !IsSpace(s[0]) && !IsSpace(s[|s| - 1])
    ensures Strip(s) == s
  {
  }

  /** `int()` reads back what the decimal notation wrote: ParseInt is a left inverse
      of ShowInt. */
  lemma ParseShowInt(n: int)
    requires |ShowNat(if n < 0 then -n else n)| <= MaxStrDigits
    ensures ParseInt(ShowInt(n)) == Some(n)
  {
    var sign := if n < 0 then "-" else "";
    var m: nat := if n < 0 then -n else n;
    var digits := ShowNat(m);
    var s := ShowInt(n);
    assert s == sign + ("" + digits);
    assert Strip(s) == s by {
      assert s[|s| - 1] == digits[|digits| - 1];
      StripUnchanged(s);
    }
    assert ParseStripped(s) == Some(n) by {
      ParseNumeralStripped(sign, "", m);
    }
  }

  /** Past the digit limit `int()` raises, however well formed the digits are. */
  lemma DigitLimitRaises(s: string)
    requires AllDigits(s) && |s| > MaxStrDigits
    ensures ParseInt(s) == None
  {
    StripUnchanged(s);
  }

  /** Every string `int()` accepts is a numeral: white space, an optional sign, leading
      zeros, the decimal notation of the value's magnitude, white space. A '-' is there
      whenever the value is negative, and the digits number at most MaxStrDigits. Any
      other text raises. */
  lemma ParseIntShape(s: string, n: int)
      returns (pre: string, sign: string, zeros: string, post: string)
    requires ParseInt(s) == Some(n)
    ensures s == pre + sign + zeros + ShowNat(if n < 0 then -n else n) + post
    ensures AllSpace(pre) && AllSpace(post)
    ensures sign == "" || sign == "+" || sign == "-"
    ensures n < 0 ==> sign == "-"
    ensures AllZeros(zeros)
    ensures |zeros| + |ShowNat(if n < 0 then -n else n)| <= MaxStrDigits
  {
    var t := Strip(s);
    pre, post := StripShape(s);
    sign, zeros := StrippedShape(t, n);
    var digits := ShowNat(if n < 0 then -n else n);
    Concat3(pre, sign + zeros, digits);
    Concat3(pre, sign, zeros);
  }

  /** A string that starts with anything other than white space, a sign or a digit
      raises, whatever follows: `int("abc")` has no value. */
  lemma NonNumeralRaises(c: char, s: string)
    requires !IsSpace(c) && c != '+' && c != '-' && !IsDigit(c)
    ensures ParseInt([c] + s) == None
  {
    if ParseInt([c] + s).Some? {
      var n := ParseInt([c] + s).value;
      var pre, sign, zeros, post := ParseIntShape([c] + s, n);
      assert false;
    }
  }

  /** `strip` cuts the string into leading white space, the stripped text and trailing
      white space. */
  lemma StripShape(s: string) returns (pre: string, post: string)
    ensures s == pre + Strip(s) + post
    ensures AllSpace(pre) && AllSpace(post)
  {
    var u := StripStart(s);
    pre := StripStartSplit(s);
    post := StripEndSplit(u);
  }

  lemma StripStartSplit(s: string) returns (pre: string)
    ensures s == pre + StripStart(s) && AllSpace(pre)
  {
    StripStartSpec(s);
    pre := s[..|s| - |StripStart(s)|];
  }

  lemma StripEndSplit(s: string) returns (post: string)
    ensures s == StripEnd(s) + post && AllSpace(post)
  {
    StripEndSpec(s);
    post := s[|StripEnd(s)|..];
  }

  /** The numeral inside the white space: sign, leading zeros, notation. */
  lemma StrippedShape(t: string, n: int) returns (sign: string, zeros: string)
    requires ParseStripped(t) == Some(n)
    ensures t == sign + zeros + ShowNat(if n < 0 then -n else n)
    ensures sign == "" || sign == "+" || sign == "-"
    ensures n < 0 ==> sign == "-"
    ensures AllZeros(zeros)
    ensures |zeros| + |ShowNat(if n < 0 then -n else n)| <= MaxStrDigits
  {
    var body;
    sign, body := SignSplit(t);
    assert |body| > 0 && AllDigits(body) && |body| <= MaxStrDigits;
    assert (if n < 0 then -n else n) == DigitsValue(body);
    zeros := DigitsShape(body);
    Concat3(sign, zeros, ShowNat(DigitsValue(body)));
  }

  /** The optional sign `int()` looks for, and the text after it. */
  lemma SignSplit(t: string) returns (sign: string, body: string)
    ensures t == sign + body
    ensures sign == "" || sign == "+" || sign == "-"
    ensures sign == "-" <==> |t| > 0 && t[0] == '-'
    ensures body == if |t| > 0 && (t[0] == '+' || t[0] == '-') then t[1..] else t
  {
    sign := if |t| > 0 && (t[0] == '+' || t[0] == '-') then t[..1] else "";
    body := t[|sign|..];
    assert t == sign + body;
  }

  lemma Concat3<T>(a: seq<T>, b: seq<T>, c: seq<T>)
    ensures a + (b + c) == a + b + c
  {
  }

  /** Conversely, every such numeral is accepted, with the value its digits and sign say. */
  lemma ParseNumeral(pre: string, sign: string, zeros: string, m: nat, post: string)
    requires AllSpace(pre) && AllSpace(post)
    requires sign == "" || sign == "+" || sign == "-"
    requires AllZeros(zeros)
    requires |zeros| + |ShowNat(m)| <= MaxStrDigits
    ensures ParseInt(pre + sign + zeros + ShowNat(m) + post)
            == Some(if sign == "-" then -(m as int) else m as int)
  {
    var digits := ShowNat(m);
    var mid := sign + (zeros + digits);
    assert pre + sign + zeros + digits + post == pre + mid + post by {
      Concat3(sign, zeros, digits);
      Concat3(pre, sign + zeros, digits);
      Concat3(pre, sign, zeros);
    }
    assert ParseInt(pre + mid + post) == ParseStripped(mid) by {
      assert mid[|mid| - 1] == digits[|digits| - 1];
      ParseIgnoresPadding(pre, mid, post);
      StripUnchanged(mid);
    }
    ParseNumeralStripped(sign, zeros, m);
  }

  lemma ParseNumeralStripped(sign: string, zeros: string, m: nat)
    requires sign == "" || sign == "+" || sign == "-"
    requires AllZeros(zeros)
    requires |zeros| + |ShowNat(m)| <= MaxStrDigits
    ensures ParseStripped(sign + (zeros + ShowNat(m)))
            == Some(if sign == "-" then -(m as int) else m as int)
  {
    var digits := ShowNat(m);
    LeadingZerosValue(zeros, digits);
    ShowNatValue(m);
    ParseSigned(sign, zeros + digits);
  }

  lemma ParseSigned(sign: string, body: string)
    requires sign == "" || sign == "+" || sign == "-"
    requires |body| > 0 && AllDigits(body) && |body| <= MaxStrDigits
    ensures ParseStripped(sign + body)
            == Some(if sign == "-" then -(DigitsValue(body) as int) else DigitsValue(body) as int)
  {
    var t := sign + body;
    if sign == "" {
      assert t == body;
    } else {
      assert t[0] == sign[0] && t[1..] == body;
    }
  }

  /** A non-empty run of digits is some leading zeros followed by the notation of its
      value. */
  lemma {:induction false} DigitsShape(d: string) returns (zeros: string)
    requires |d| > 0 && AllDigits(d)
    ensures AllZeros(zeros) && d == zeros + ShowNat(DigitsValue(d))
  {
    var init := d[..|d| - 1];
    var c := d[|d| - 1];
    if |init| == 0 {
      zeros := "";
      assert d == [c];
      assert DigitChar(DigitValue(c)) == c;
    } else {
      var z := DigitsShape(init);
      var v := DigitsValue(init);
      if v == 0 {
        zeros := z + "0";
        assert ShowNat(DigitsValue(d)) == [c] by {
          assert DigitChar(DigitValue(c)) == c;
        }
        assert d == init + [c];
      } else {
        zeros := z;
        var w := DigitsValue(d);
        assert w == 10 * v + DigitValue(c);
        assert w / 10 == v && w % 10 == DigitValue(c);
        assert DigitChar(DigitValue(c)) == c;
        assert ShowNat(w) == ShowNat(v) + [c];
        assert d == init + [c];
      }
    }
  }

  /** Leading zeros do not change the value of a digit string. */
  lemma {:induction false} LeadingZerosValue(zeros: string, d: string)
    requires AllZeros(zeros) && AllDigits(d)
    ensures AllDigits(zeros + d) && DigitsValue(zeros + d) == DigitsValue(d)
  {
    if |d| == 0 {
      assert zeros + d == zeros;
      ZerosValue(zeros);
    } else {
      assert (zeros + d)[..|zeros + d| - 1] == zeros + d[..|d| - 1];
      LeadingZerosValue(zeros, d[..|d| - 1]);
    }
  }

  lemma {:induction false} ZerosValue(zeros: string)
    requires AllZeros(zeros)
    ensures AllDigits(zeros) && DigitsValue(zeros) == 0
  {
    if |zeros| > 0 {
      ZerosValue(zeros[..|zeros| - 1]);
    }
  }

  /** Surrounding white space does not change what `int()` reads. */
  lemma ParseIgnoresPadding(pre: string, s: string, post: string)
    requires AllSpace(pre) && AllSpace(post)
    requires |s| > 0 && !IsSpace(s[0]) && !IsSpace(s[|s| - 1])
    ensures ParseInt(pre + s + post) == ParseInt(s)
  {
    StripStartPadding(pre, s + post);
    assert pre + s + post == pre + (s + post);
    StripEndPadding(s, post);
    StripUnchanged(s);
    assert Strip(pre + s + post) == Strip(s);
  }

  lemma {:induction false} StripStartPadding(pre: string, s: string)
    requires AllSpace(pre)
    requires |s| > 0 && !IsSpace(s[0])
    ensures StripStart(pre + s) == s
  {
    if |pre| > 0 {
      assert (pre + s)[1..] == pre[1..] + s;
      StripStartPadding(pre[1..], s);
    } else {
      assert pre + s == s;
    }
  }

  lemma {:induction false} StripEndPadding(s: string, post: string)
    requires AllSpace(post)
    requires |s| > 0 && !IsSpace(s[|s| - 1])
    ensures StripEnd(s + post) == s
  {
    if |post| > 0 {
      assert (s + post)[..|s + post| - 1] == s + post[..|post| - 1];
      StripEndPadding(s, post[..|post| - 1]);
    } else {
      assert s + post == s;
    }
  }

  /** The naming convention `<dir>/<index>_<rest>` yields `index` as the frame index,
      whatever the directory and whatever follows the '_' (as long as it has no '/'). */
  lemma FrameIndexOfConventionalName(dir: string, n: nat, rest: string)
    requires |dir| == 0 || dir[|dir| - 1] == '/'
    requires '/' !in rest
    requires |ShowNat(n)| <= MaxStrDigits
    ensures FrameIndex(dir + ShowNat(n) + "_" + rest) == Some(n)
  {
    var digits := ShowNat(n);
    var name := digits + "_" + rest;
    var p := dir + name;
    assert dir + digits + "_" + rest == p;
    NoSeparatorInDigits(digits);
    assert name == digits + ("_" + rest);
    BasenameOfSuffix(dir, name);
    FirstFieldOfPrefix(digits, "_" + rest);
    ParseShowInt(n);
    assert FirstField(Basename(p)) == ShowInt(n);
  }

  /** Every path with an index follows the naming convention: a directory part ending in
      '/' (or none), then a first field that is a numeral as `int()` accepts it, then
      either nothing or a '_' and the rest of the name, with no '/' after the directory
      part. A name whose first field is not such a numeral has no index. */
  lemma FrameIndexShape(p: Path, n: int)
      returns (dir: string, field: string, rest: string,
               pre: string, sign: string, zeros: string, post: string)
    requires FrameIndex(p) == Some(n)
    ensures p == dir + field + rest
    ensures |dir| == 0 || dir[|dir| - 1] == '/'
    ensures '/' !in field + rest && '_' !in field
    ensures |rest| == 0 || rest[0] == '_'
    ensures field == pre + sign + zeros + ShowNat(if n < 0 then -n else n) + post
    ensures AllSpace(pre) && AllSpace(post)
    ensures sign == "" || sign == "+" || sign == "-"
    ensures n < 0 ==> sign == "-"
    ensures AllZeros(zeros)
    ensures |zeros| + |ShowNat(if n < 0 then -n else n)| <= MaxStrDigits
  {
    dir, field, rest := NameShape(p);
    pre, sign, zeros, post := ParseIntShape(field, n);
  }

  /** Conversely, a path cut that way has the value of its first field as its index, and
      raises exactly when `int()` raises on that field. */
  lemma FrameIndexOfName(dir: string, field: string, rest: string)
    requires |dir| == 0 || dir[|dir| - 1] == '/'
    requires '/' !in field + rest && '_' !in field
    requires |rest| == 0 || rest[0] == '_'
    ensures FrameIndex(dir + field + rest) == ParseInt(field)
  {
    var name := field + rest;
    assert dir + field + rest == dir + name;
    BasenameOfSuffix(dir, name);
    if |rest| == 0 {
      assert name == field;
      FirstFieldSpec(field);
    } else {
      FirstFieldOfPrefix(field, rest);
    }
  }

  /** A file whose name starts with a field such as `abc` (its first character neither
      white space, a sign nor a digit) has no index: the sort key raises. */
  lemma NonNumeralNameRaises(dir: string, c: char, s: string, rest: string)
    requires |dir| == 0 || dir[|dir| - 1] == '/'
    requires '/' !in [c] + s + rest && '_' !in [c] + s
    requires |rest| == 0 || rest[0] == '_'
    requires !IsSpace(c) && c != '+' && c != '-' && !IsDigit(c)
    ensures FrameIndex(dir + ([c] + s) + rest) == None
  {
    FrameIndexOfName(dir, [c] + s, rest);
    NonNumeralRaises(c, s);
  }

  /** A path cut at the start of its basename and at the end of the basename's first
      field. */
  lemma NameShape(p: Path) returns (dir: string, field: string, rest: string)
    ensures field == FirstField(Basename(p))
    ensures p == dir + field + rest
    ensures |dir| == 0 || dir[|dir| - 1] == '/'
    ensures '/' !in field + rest && '_' !in field
    ensures |rest| == 0 || rest[0] == '_'
  {
    var b := Basename(p);
    field := FirstField(b);
    dir := BasenameSplit(p);
    rest := FirstFieldSplit(b);
    Concat3(dir, field, rest);
  }

  lemma BasenameSplit(p: Path) returns (dir: string)
    ensures p == dir + Basename(p) && '/' !in Basename(p)
    ensures |dir| == 0 || dir[|dir| - 1] == '/'
  {
    BasenameSpec(p);
    dir := p[..|p| - |Basename(p)|];
  }

  lemma FirstFieldSplit(s: string) returns (rest: string)
    ensures s == FirstField(s) + rest && '_' !in FirstField(s)
    ensures |rest| == 0 || rest[0] == '_'
  {
    FirstFieldSpec(s);
    rest := s[|FirstField(s)|..];
  }

  lemma NoSeparatorInDigits(s: string)
    requires AllDigits(s)
    ensures '/' !in s && '_' !in s
  {
  }

  lemma {:induction false} BasenameOfSuffix(dir: string, name: string)
    requires |dir| == 0 || dir[|dir| - 1] == '/'
    requires '/' !in name
    ensures Basename(dir + name) == name
  {
    if |name| > 0 {
      var init := name[..|name| - 1];
      assert (dir + name)[..|dir + name| - 1] == dir + init;
      BasenameOfSuffix(dir, init);
      assert name == init + [name[|name| - 1]];
    } else {
      assert dir + name == dir;
    }
  }

  lemma {:induction false} FirstFieldOfPrefix(f: string, rest: string)
    requires '_' !in f
    requires |rest| > 0 && rest[0] == '_'
    ensures FirstField(f + rest) == f
  {
    if |f| > 0 {
      assert (f + rest)[1..] == f[1..] + rest;
      FirstFieldOfPrefix(f[1..], rest);
    } else {
      assert f + rest == rest;
    }
  }
}

=== FILE: indices.dfy ===
/** Positions kept by a filter. Both scripts walk a sequence and keep some of its
    positions (the detected images, the pairs detected on both sides); the positions
    kept, in increasing order, are what their results are stated in terms of.
 */
module Indices {

  /** The positions i of `flags` with flags[i], in increasing order. */
  function TrueIndices(flags: seq<bool>): (r: seq<nat>)
    ensures forall k :: 0 <= k < |r| ==> r[k] < |flags| && flags[r[k]]
    ensures forall k, l :: 0 <= k < l < |r| ==> r[k] < r[l]
    ensures forall i :: 0 <= i < |flags| && flags[i] ==> i in r
    ensures |r| <= |flags|
  {
    if |flags| == 0 then []
    else
      var n := |flags| - 1;
      TrueIndices(flags[..n]) + (if flags[n] then [n] else [])
  }

  /** One more position examined: the kept positions grow by it exactly when it is kept.
      This is the step of every filtering loop. */
  lemma TrueIndicesStep(flags: seq<bool>, i: nat)
    requires i < |flags|
    ensures TrueIndices(flags[..i + 1]) == TrueIndices(flags[..i]) + (if flags[i] then [i] else [])
  {
    assert flags[..i + 1][..i] == flags[..i];
  }

  /** The elements of s at the positions whose flag holds, in order. */
  function Filter<T>(s: seq<T>, flags: seq<bool>): seq<T>
    requires |flags| == |s|
  {
    if |s| == 0 then []
    else
      var n := |s| - 1;
      Filter(s[..n], flags[..n]) + (if flags[n] then [s[n]] else [])
  }

  /** Element k of a filtered sequence is the element at the k-th kept position. */
  lemma {:induction false} FilterAt<T>(s: seq<T>, flags: seq<bool>)
    requires |flags| == |s|
    ensures |Filter(s, flags)| == |TrueIndices(flags)|
    ensures forall k :: 0 <= k < |TrueIndices(flags)| ==>
              Filter(s, flags)[k] == s[TrueIndices(flags)[k]]
  {
    if |s| > 0 {
      var n := |s| - 1;
      FilterAt(s[..n], flags[..n]);
      var kept, kept' := TrueIndices(flags), TrueIndices(flags[..n]);
      var f, f' := Filter(s, flags), Filter(s[..n], flags[..n]);
      forall k | 0 <= k < |kept| ensures f[k] == s[kept[k]] {
        if k < |kept'| {
          assert f[k] == f'[k] && kept[k] == kept'[k];
        }
      }
    }
  }
}

=== FILE: keysort.dfy ===
/** Python's `sorted(xs, key=k)` for a key function that returns an integer or raises.
    All keys are computed first, in list order, and the first one that raises aborts
    the sort; then the (key, item) entries are sorted stably by ascending key.
    Stability is part of Python's contract and decides the order of items that share
    a key.
 */
module KeySort {
  import opened Results

  datatype Keyed<T> = Keyed(key: int, item: T)

  predicate Sorted<T>(s: seq<Keyed<T>>)
  {
    forall i, j :: 0 <= i < j < |s| ==> s[i].key <= s[j].key
  }

  /** The entries of s that carry key k, in their order in s. */
  function WithKey<T>(s: seq<Keyed<T>>, k: int): seq<Keyed<T>>
  {
    if |s| == 0 then []
    else (if s[0].key == k then [s[0]] else []) + WithKey(s[1..], k)
  }

  /** The items of a keyed sequence, keys dropped. */
  function Items<T>(s: seq<Keyed<T>>): seq<T>
  {
    if |s| == 0 then [] else [s[0].item] + Items(s[1..])
  }

  lemma {:induction false} ItemsAt<T>(s: seq<Keyed<T>>)
    ensures |Items(s)| == |s|
    ensures forall i :: 0 <= i < |s| ==> Items(s)[i] == s[i].item
  {
    if |s| > 0 {
      ItemsAt(s[1..]);
    }
  }

  /** Places x in front of the first entry whose key is not smaller than x's. */
  function Insert<T>(x: Keyed<T>, s: seq<Keyed<T>>): seq<Keyed<T>>
  {
    if |s| == 0 then [x]
    else if x.key <= s[0].key then [x] + s
    else [s[0]] + Insert(x, s[1..])
  }

  /** Insertion sort: the head is inserted into the sorted tail, in front of any entry
      with the same key, so entries with equal keys keep their input order. */
  function Sort<T>(s: seq<Keyed<T>>): seq<Keyed<T>>
  {
    if |s| == 0 then [] else Insert(s[0], Sort(s[1..]))
  }

  /** Every entry of s has a key of at least b. */
  predicate KeysAtLeast<T>(s: seq<Keyed<T>>, b: int)
  {
    forall i :: 0 <= i < |s| ==> b <= s[i].key
  }

  lemma {:induction false} InsertLength<T>(x: Keyed<T>, s: seq<Keyed<T>>)
    ensures |Insert(x, s)| == |s| + 1
  {
    if |s| > 0 && x.key > s[0].key {
      InsertLength(x, s[1..]);
    }
  }

  lemma {:induction false} InsertMultiset<T>(x: Keyed<T>, s: seq<Keyed<T>>)
    ensures multiset(Insert(x, s)) == multiset(s) + multiset{x}
  {
    if |s| > 0 && x.key > s[0].key {
      InsertMultiset(x, s[1..]);
      assert s == [s[0]] + s[1..];
    }
  }

  /** Inserting an entry above a lower bound keeps every key above it. */
  lemma {:induction false} InsertKeysAtLeast<T>(x: Keyed<T>, s: seq<Keyed<T>>, b: int)
    requires KeysAtLeast(s, b) && b <= x.key
    ensures KeysAtLeast(Insert(x, s), b)
  {
    if |s| > 0 && x.key > s[0].key {
      InsertKeysAtLeast(x, s[1..], b);
    }
  }

  lemma {:induction false} InsertSorted<T>(x: Keyed<T>, s: seq<Keyed<T>>)
    requires Sorted(s)
    ensures Sorted(Insert(x, s))
  {
    if |s| > 0 && x.key > s[0].key {
      InsertSorted(x, s[1..]);
      var r := Insert(x, s[1..]);
      InsertKeysAtLeast(x, s[1..], s[0].key);
      assert Insert(x, s) == [s[0]] + r;
    } else if |s| > 0 {
      assert KeysAtLeast(s, s[0].key);
    }
  }

  /** The result is in ascending key order and holds exactly the input entries. */
  lemma {:induction false} SortSortedPermutation<T>(s: seq<Keyed<T>>)
    ensures Sorted(Sort(s))
    ensures multiset(Sort(s)) == multiset(s)
    ensures |Sort(s)| == |s|
  {
    if |s| > 0 {
      SortSortedPermutation(s[1..]);
      InsertSorted(s[0], Sort(s[1..]));
      InsertMultiset(s[0], Sort(s[1..]));
      InsertLength(s[0], Sort(s[1..]));
      assert s == [s[0]] + s[1..];
    }
  }

  lemma WithKeyCons<T>(a: Keyed<T>, r: seq<Keyed<T>>, k: int)
    ensures WithKey([a] + r, k) == (if a.key == k then [a] else []) + WithKey(r, k)
  {
    assert ([a] + r)[1..] == r;
  }

  lemma {:induction false} InsertWithKey<T>(x: Keyed<T>, s: seq<Keyed<T>>, k: int)
    ensures WithKey(Insert(x, s), k) == (if x.key == k then [x] else []) + WithKey(s, k)
  {
    if |s| == 0 {
      WithKeyCons(x, s, k);
    } else if x.key <= s[0].key {
      WithKeyCons(x, s, k);
    } else {
      var rest := Insert(x, s[1..]);
      var own := if x.key == k then [x] else [];
      var head := if s[0].key == k then [s[0]] else [];
      InsertWithKey(x, s[1..], k);
      WithKeyCons(s[0], rest, k);
      WithKeyCons(s[0], s[1..], k);
      assert [s[0]] + s[1..] == s;
      calc {
        WithKey(Insert(x, s), k);
        WithKey([s[0]] + rest, k);
        head + WithKey(rest, k);
        head + (own + WithKey(s[1..], k));
        own + (head + WithKey(s[1..], k));
        own + WithKey(s, k);
      }
    }
  }

  /** Stability: for every key, the entries carrying it appear in the result in the
      same order as in the input. */
  lemma {:induction false} SortStable<T>(s: seq<Keyed<T>>, k: int)
    ensures WithKey(Sort(s), k) == WithKey(s, k)
  {
    if |s| > 0 {
      SortStable(s[1..], k);
      InsertWithKey(s[0], Sort(s[1..]), k);
    }
  }

  lemma ItemsSplit<T>(a: seq<Keyed<T>>, b: seq<Keyed<T>>)
    ensures Items(a + b) == Items(a) + Items(b)
  {
    ItemsAt(a + b);
    ItemsAt(a);
    ItemsAt(b);
  }

  lemma ItemsCons<T>(a: Keyed<T>, r: seq<Keyed<T>>)
    ensures Items([a] + r) == [a.item] + Items(r)
  {
    assert ([a] + r)[1..] == r;
  }

  lemma {:induction false} InsertItems<T>(x: Keyed<T>, s: seq<Keyed<T>>)
    ensures multiset(Items(Insert(x, s))) == multiset(Items(s)) + multiset{x.item}
  {
    if |s| == 0 {
      ItemsCons(x, s);
    } else if x.key <= s[0].key {
      ItemsCons(x, s);
    } else {
      var rest := Insert(x, s[1..]);
      InsertItems(x, s[1..]);
      ItemsCons(s[0], rest);
      ItemsCons(s[0], s[1..]);
      assert [s[0]] + s[1..] == s;
      assert Insert(x, s) == [s[0]] + rest;
    }
  }

  /** The items of the sorted entries are a permutation of the items of the input. */
  lemma {:induction false} SortItemsPermutation<T>(s: seq<Keyed<T>>)
    ensures multiset(Items(Sort(s))) == multiset(Items(s))
  {
    if |s| > 0 {
      SortItemsPermutation(s[1..]);
      InsertItems(s[0], Sort(s[1..]));
      assert Items(s) == [s[0].item] + Items(s[1..]);
    }
  }

  /** The position of the first item whose key raises, or |xs| when none does. */
  function FirstFailure<T>(xs: seq<T>, key: T -> Option<int>): (i: nat)
    ensures i <= |xs|
    ensures forall j :: 0 <= j < i ==> key(xs[j]).Some?
    ensures i < |xs| ==> key(xs[i]).None?
  {
    if |xs| == 0 || key(xs[0]).None? then 0 else 1 + FirstFailure(xs[1..], key)
  }

  /** The keys of xs, computed in list order; Err carries the first item whose key
      raises. */
  function KeyAll<T>(xs: seq<T>, key: T -> Option<int>): (r: Result<seq<Keyed<T>>, T>)
    ensures r.Ok? <==> forall i :: 0 <= i < |xs| ==> key(xs[i]).Some?
    ensures r.Ok? ==> |r.value| == |xs|
    ensures r.Ok? ==> forall i :: 0 <= i < |xs| ==> r.value[i] == Keyed(key(xs[i]).value, xs[i])
    ensures r.Err? ==> exists i :: 0 <= i < |xs| && r.error == xs[i] && key(xs[i]).None?
                                   && forall j :: 0 <= j < i ==> key(xs[j]).Some?
  {
    var i := FirstFailure(xs, key);
    if i < |xs| then Err(xs[i])
    else Ok(seq(|xs|, j requires 0 <= j < |xs| => Keyed(key(xs[j]).value, xs[j])))
  }

  /** An entry whose key is the key function's value on its item. */
  predicate KeyedBy<T>(e: Keyed<T>, key: T -> Option<int>)
  {
    key(e.item) == Some(e.key)
  }

  lemma SortKeyedBy<T>(xs: seq<T>, key: T -> Option<int>)
    requires KeyAll(xs, key).Ok?
    ensures var sorted := Sort(KeyAll(xs, key).value);
            forall i :: 0 <= i < |sorted| ==> KeyedBy(sorted[i], key)
  {
    var keyed := KeyAll(xs, key).value;
    var sorted := Sort(keyed);
    SortSortedPermutation(keyed);
    forall i | 0 <= i < |sorted| ensures KeyedBy(sorted[i], key) {
      assert sorted[i] in multiset(keyed);
    }
  }

  /** `sorted(xs, key=key)`: a permutation of xs in ascending key order, or the first
      item whose key raises. */
  function SortBy<T>(xs: seq<T>, key: T -> Option<int>): (r: Result<seq<T>, T>)
    ensures r.Ok? <==> forall i :: 0 <= i < |xs| ==> key(xs[i]).Some?
    ensures r.Ok? ==> multiset(r.value) == multiset(xs) && |r.value| == |xs|
    ensures r.Ok? ==> forall i :: 0 <= i < |r.value| ==> key(r.value[i]).Some?
    ensures r.Ok? ==> forall i, j :: 0 <= i < j < |r.value| ==>
                        key(r.value[i]).value <= key(r.value[j]).value
    ensures r.Err? ==> exists i :: 0 <= i < |xs| && r.error == xs[i] && key(xs[i]).None?
                                   && forall j :: 0 <= j < i ==> key(xs[j]).Some?
  {
    match KeyAll(xs, key)
    case Err(e) => Err(e)
    case Ok(keyed) =>
      SortSortedPermutation(keyed);
      SortItemsPermutation(keyed);
      SortKeyedBy(xs, key);
      ItemsAt(keyed);
      ItemsAt(Sort(keyed));
      assert Items(keyed) == xs;
      Ok(Items(Sort(keyed)))
  }

  /** The items of s whose key is k, in their order in s. */
  function WithKeyValue<T>(s: seq<T>, key: T -> Option<int>, k: int): seq<T>
  {
    if |s| == 0 then []
    else (if key(s[0]) == Some(k) then [s[0]] else []) + WithKeyValue(s[1..], key, k)
  }

  lemma {:induction false} WithKeyItems<T>(s: seq<Keyed<T>>, key: T -> Option<int>, k: int)
    requires forall i :: 0 <= i < |s| ==> KeyedBy(s[i], key)
    ensures Items(WithKey(s, k)) == WithKeyValue(Items(s), key, k)
  {
    if |s| > 0 {
      WithKeyItems(s[1..], key, k);
      assert Items(s)[1..] == Items(s[1..]);
      var head := if s[0].key == k then [s[0]] else [];
      ItemsSplit(head, WithKey(s[1..], k));
    }
  }

  /** Stability of `sorted`: the items sharing a key keep their input order. */
  lemma SortByStable<T>(xs: seq<T>, key: T -> Option<int>, k: int)
    requires SortBy(xs, key).Ok?
    ensures WithKeyValue(SortBy(xs, key).value, key, k) == WithKeyValue(xs, key, k)
  {
    var keyed := KeyAll(xs, key).value;
    ItemsAt(keyed);
    assert Items(keyed) == xs;
    SortKeyedBy(xs, key);
    SortStable(keyed, k);
    WithKeyItems(Sort(keyed), key, k);
    WithKeyItems(keyed, key, k);
  }
}

=== FILE: pattern.dfy ===
/** The planar calibration target: the object points of the chessboard's inner corners.

    The script builds them with NumPy: a (rows * columns, 3) array of zeros whose first
    two columns are overwritten with `mgrid[0:columns, 0:rows].T.reshape(-1, 2)`. This
    module models those three array steps literally and proves that the outcome is the
    closed form "point i is (i mod columns, i div columns, 0)". Coordinates are integers
    because the square size is one unit; the script stores them as float32, which
    represents these small integers exactly.
 */
module Pattern {

  /** Inner corners per row and per column of the 11 x 8 square board. */
  const Columns: nat := 10
  const Rows: nat := 7

  datatype Point3 = Point3(x: int, y: int, z: int)

  /** `mgrid[0:cols, 0:rows]`: an array of shape (2, cols, rows) whose plane 0 holds the
      first index and plane 1 the second index. */
  function Mgrid(cols: nat, rows: nat): (g: seq<seq<seq<int>>>)
    ensures |g| == 2
    ensures forall a :: 0 <= a < 2 ==> |g[a]| == cols
    ensures forall a, c :: 0 <= a < 2 && 0 <= c < cols ==> |g[a][c]| == rows
    ensures forall c, r :: 0 <= c < cols && 0 <= r < rows ==> g[0][c][r] == c && g[1][c][r] == r
  {
    [seq(cols, c => seq(rows, r => c)), seq(cols, c => seq(rows, r => r))]
  }

  /** `.T` on a three-dimensional array: the axes are reversed, so shape (2, C, R)
      becomes (R, C, 2) and element [a][c][r] moves to [r][c][a]. */
  function Transpose(g: seq<seq<seq<int>>>, cols: nat, rows: nat): (t: seq<seq<seq<int>>>)
    requires |g| == 2
    requires forall a :: 0 <= a < 2 ==> |g[a]| == cols
    requires forall a, c :: 0 <= a < 2 && 0 <= c < cols ==> |g[a][c]| == rows
    ensures |t| == rows
    ensures forall r :: 0 <= r < rows ==> |t[r]| == cols
    ensures forall r, c :: 0 <= r < rows && 0 <= c < cols ==> t[r][c] == [g[0][c][r], g[1][c][r]]
  {
    seq(rows, r requires 0 <= r < rows =>
      seq(cols, c requires 0 <= c < cols => [g[0][c][r], g[1][c][r]]))
  }

  /** `.reshape(-1, 2)` on an array of shape (R, C, 2): the two leading axes are merged in
      row-major order, that is the rows are concatenated. */
  function Flatten(t: seq<seq<seq<int>>>): seq<seq<int>>
  {
    if |t| == 0 then [] else t[0] + Flatten(t[1..])
  }

  /** A positive multiple of a positive number is at least that number. */
  lemma {:induction false} MulAtLeast(a: int, n: int)
    requires a >= 1 && n > 0
    ensures a * n >= n
  {
    assert a * n == (a - 1) * n + n;
  }

  /** Euclidean division is unique: a quotient and remainder in range are THE quotient
      and remainder. */
  lemma {:induction false} DivModUnique(i: int, n: int, q: int, m: int)
    requires 0 < n && 0 <= m < n && i == q * n + m
    ensures i / n == q && i % n == m
  {
    var q', m' := i / n, i % n;
    assert (q' - q) * n == m - m';
    assert (q - q') * n == m' - m;
    if q' > q {
      MulAtLeast(q' - q, n);
    } else if q > q' {
      MulAtLeast(q - q', n);
    }
  }

  /** An index below rows * cols has a row index below rows. */
  lemma {:induction false} DivBelow(i: int, cols: int, rows: int)
    requires 0 < cols && 0 <= i < rows * cols
    ensures 0 <= i / cols < rows && 0 <= i % cols < cols
  {
    var q := i / cols;
    assert (-q) * cols == -(q * cols);
    assert (q - rows + 1) * cols == q * cols - rows * cols + cols;
    if q < 0 {
      MulAtLeast(-q, cols);
    } else if q >= rows {
      MulAtLeast(q - rows + 1, cols);
    }
  }

  /** The flattened array has C elements per original row. */
  lemma {:induction false} FlattenLength(t: seq<seq<seq<int>>>, cols: nat)
    requires forall r :: 0 <= r < |t| ==> |t[r]| == cols
    ensures |Flatten(t)| == |t| * cols
  {
    if |t| > 0 {
      FlattenLength(t[1..], cols);
      MulSplit(|t|, cols);
    }
  }

  /** Element (r, c) of the original is element r * C + c of the flattened array. */
  lemma {:induction false} FlattenAt(t: seq<seq<seq<int>>>, cols: nat, r: nat, c: nat)
    requires forall q :: 0 <= q < |t| ==> |t[q]| == cols
    requires r < |t| && c < cols
    ensures r * cols + c < |Flatten(t)|
    ensures Flatten(t)[r * cols + c] == t[r][c]
  {
    FlattenLength(t, cols);
    if r > 0 {
      var rest := t[1..];
      FlattenAt(rest, cols, r - 1, c);
      MulSplit(r, cols);
      assert Flatten(t) == t[0] + Flatten(rest);
      assert Flatten(t)[cols + ((r - 1) * cols + c)] == Flatten(rest)[(r - 1) * cols + c];
    }
  }

  lemma {:induction false} MulSplit(n: int, cols: int)
    requires n > 0
    ensures n * cols == cols + (n - 1) * cols
  {
  }

  /** Entry i of `mgrid[0:cols, 0:rows].T.reshape(-1, 2)` is [i mod cols, i div cols]. */
  lemma {:induction false} FlatCell(cols: nat, rows: nat, i: nat)
    requires cols > 0 && i < rows * cols
    ensures var flat := Flatten(Transpose(Mgrid(cols, rows), cols, rows));
            i < |flat| && flat[i] == [i % cols, i / cols]
  {
    var t := Transpose(Mgrid(cols, rows), cols, rows);
    DivBelow(i, cols, rows);
    var r, c := i / cols, i % cols;
    assert i == r * cols + c;
    FlattenAt(t, cols, r, c);
  }

  /** The planar grid of `cols * rows` points on z = 0, built the way the script builds it. */
  function GridPoints(cols: nat, rows: nat): (pts: seq<Point3>)
    requires cols > 0
    ensures |pts| == cols * rows
    ensures forall i :: 0 <= i < |pts| ==> pts[i] == Point3(i % cols, i / cols, 0)
  {
    var t := Transpose(Mgrid(cols, rows), cols, rows);
    var flat := Flatten(t);
    FlattenLength(t, cols);
    forall i | 0 <= i < |flat|
      ensures flat[i] == [i % cols, i / cols]
    {
      FlatCell(cols, rows, i);
    }
    seq(|flat|, i requires 0 <= i < |flat| => Point3(flat[i][0], flat[i][1], 0))
  }

  /** `prepare_object_points`: the 70 object points of the 10 x 7 board. */
  function ObjectPoints(): (pts: seq<Point3>)
    ensures |pts| == Columns * Rows == 70
    ensures forall i :: 0 <= i < |pts| ==> pts[i] == Point3(i % Columns, i / Columns, 0)
  {
    GridPoints(Columns, Rows)
  }

  /** Position of the corner in column c, row r: the column index varies fastest. */
  function CornerIndex(cols: nat, c: nat, r: nat): nat
  {
    r * cols + c
  }


  /** The corner in column c, row r sits at position r * cols + c and carries coordinates
      (c, r, 0). */
  lemma {:induction false} GridIndexRoundTrip(cols: nat, rows: nat, c: nat, r: nat)
    requires cols > 0 && c < cols && r < rows
    ensures CornerIndex(cols, c, r) < |GridPoints(cols, rows)|
    ensures GridPoints(cols, rows)[CornerIndex(cols, c, r)] == Point3(c, r, 0)
  {
    var i := CornerIndex(cols, c, r);
    assert i < cols * rows by {
      assert r * cols + c < r * cols + cols == (r + 1) * cols <= rows * cols;
    }
    DivModUnique(i, cols, r, c);
  }

  /** Conversely every position is the corner of the column and row its point names,
      so positions and (column, row) pairs correspond one to one. */
  lemma {:induction false} PositionRoundTrip(cols: nat, rows: nat, i: nat)
    requires cols > 0 && i < cols * rows
    ensures var p := GridPoints(cols, rows)[i];
            && 0 <= p.x < cols && 0 <= p.y < rows
            && CornerIndex(cols, p.x, p.y) == i
  {
    DivBelow(i, cols, rows);
    assert i == (i / cols) * cols + i % cols;
  }

  /** Distinct positions carry distinct points, so the grid lists every corner once. */
  lemma {:induction false} GridPointsDistinct(cols: nat, rows: nat, i: nat, j: nat)
    requires cols > 0 && i < j < cols * rows
    ensures GridPoints(cols, rows)[i] != GridPoints(cols, rows)[j]
  {
    assert i == (i / cols) * cols + i % cols;
    assert j == (j / cols) * cols + j % cols;
  }

  /** Walking along a row: the next point is one unit further in x, same y and z. */
  lemma {:induction false} GridRowStep(cols: nat, rows: nat, i: nat)
    requires cols > 0 && i + 1 < cols * rows && i % cols != cols - 1
    ensures GridPoints(cols, rows)[i + 1].x == GridPoints(cols, rows)[i].x + 1
    ensures GridPoints(cols, rows)[i + 1].y == GridPoints(cols, rows)[i].y
    ensures GridPoints(cols, rows)[i + 1].z == GridPoints(cols, rows)[i].z == 0
  {
    DivModUnique(i + 1, cols, i / cols, i % cols + 1);
  }

  /** Walking along a column: `cols` positions further on, y grows by one unit. */
  lemma {:induction false} GridColumnStep(cols: nat, rows: nat, i: nat)
    requires cols > 0 && i + cols < cols * rows
    ensures GridPoints(cols, rows)[i + cols].x == GridPoints(cols, rows)[i].x
    ensures GridPoints(cols, rows)[i + cols].y == GridPoints(cols, rows)[i].y + 1
    ensures GridPoints(cols, rows)[i + cols].z == 0
  {
    DivModUnique(i + cols, cols, i / cols + 1, i % cols);
  }
}

=== FILE: results.dfy ===
// Optional values (an image that did not load) and results that may carry a raised error.
module Results {

  datatype Option<+T> = None | Some(value: T)

  datatype Result<+T, +E> = Ok(value: T) | Err(error: E)
}
